=== FILE: README.md ===
# Rounded image parameter model

A Dafny model of `RoundedImage`, a Unity UI image that draws a rounded
rectangle through a shader. The component stores four corner radii, a
"unified" mode flag, fill and outline settings and an edge softness. Each
property setter writes its field. Geometric setters then clamp the store to
the rectangle's current extent (`ValidateValues`). Every setter and every
size change then pushes a fixed block of nine uniforms to the material
(`UpdateRoundedMaterial`).

The model is functional. The component's state is an immutable record.
Setters and notifications are functions that return the next state plus
the sequence of uniform writes they send. The material is a map from
uniform to value in which the last write wins.

| file | module | models |
|---|---|---|
| `values.dfy` | `Values` | colours, sprites and textures, the extent, `Mathf.Min`, `Mathf.Clamp` |
| `store.dfy` | `Store` | the serialised fields and their initialisers, and the legal ranges |
| `validator.dfy` | `Validator` | `ValidateValues` |
| `material.dfy` | `Material` | `UpdateRoundedMaterial`, the uniform sink, and the shader's reading of the sink |
| `component.dfy` | `Component` | every property setter, `ClampAndUpdateMaterial`, `UpdateMaterial`, `OnRectTransformDimensionsChange`, `OnValidate` |
| `serialization.dfy` | `Serialization` | the persisted layout and its `FormerlySerializedAs` rename table |

Behaviour of the code worth knowing when reading the model:

- **Size changes do not clamp.** `OnRectTransformDimensionsChange` (lines
  230-234) only re-synchronises. A radius of 50, legal at (100, 100), stays
  stored after a shrink to (60, 60) and reaches the shader as 50, above the
  new half side of 30, until the next geometric setter or `OnValidate` runs.
  `Component.OnDimensionsChange` models this, and
  `Component.ShrinkLeavesRadiusUnclamped` and
  `Component.DegenerateExtentScenario` show the effect.
- **One width.** The component has a single width field, `_outline`. When
  both sides are at least 0.001 it is clamped to half the shorter side; at a
  degenerate extent it is kept as written. It is sent as `_Outline`, or as 0
  when the outline is disabled.
- **The bulk setter stores the clamped value.** When both sides are at least
  0.001, the `radius` setter makes all four corners read back `v` clamped
  into range, not `v` itself. At a degenerate extent the corners read back
  `v` unclamped (`Component.BulkRadiusAtDegenerateExtent`).
- **One corner packing.** `_Radii` is packed as (bottom-left, top-left,
  bottom-right, top-right). The base colour `_Color` is the host image's own
  `color`.

## Model

| member | source | states |
|---|---|---|
| Values.Clamp | Runtime/Scripts/RoundedImage.cs:275-280 | A value below the lower bound becomes the lower bound. A value above the upper bound becomes the upper bound. A value in range is kept. The result lies in range whenever the range is non-empty. |
| Values.ShorterSide | Runtime/Scripts/RoundedImage.cs:272 | The result is one of the two sides and no larger than either. |
| Values.TextureOf | Runtime/Scripts/RoundedImage.cs:247-251 | A null sprite gives a null texture, and a sprite gives its own texture. |
| Values.ClampIsNearest | Runtime/Scripts/RoundedImage.cs:275-280 | Out-of-range input is moved to the nearest legal value: no point of the range is closer to the input. |
| Values.ClampMonotone | Runtime/Scripts/RoundedImage.cs:273-280 | A lower upper bound never gives a larger clamped value. |
| Values.ClampAbsorbs | Runtime/Scripts/RoundedImage.cs:273-280 | Clamping into a wide range and then into a narrower one equals clamping into the narrower one directly. |
| Store.DefaultsLegalExactly | Runtime/Scripts/RoundedImage.cs:22-39 | A fresh component, with outline 4 and softness 0.5, is legal exactly when the shorter side is at least 8. Below that, its stored outline is out of range until the first clamp. |
| Store.ClippedFromIsUnique | Runtime/Scripts/RoundedImage.cs:266-281 | For any extent, the field-by-field clipping rule admits at most one store. `Validate` supplies it whenever the extent is not degenerate, so the rule fully specifies validation there. |
| Validator.Validate | Runtime/Scripts/RoundedImage.cs:266-281 | Validation is total. A side below 0.001 leaves the store exactly unchanged. Otherwise every geometric field is clipped into range and the store becomes legal. Mode, flags, colours and sprite never change. An already legal store is returned as is. |
| Validator.ClippedFromIsValidate | Runtime/Scripts/RoundedImage.cs:266-281 | With both sides at least 0.001, a store satisfies the field-by-field clipping rule if and only if it is the validated store: exactly one store does. |
| Validator.RadiusBounds | Runtime/Scripts/RoundedImage.cs:270-280 | With both sides at least 0.001, every corner radius lies in [0, min(w,h)/2]. |
| Validator.SoftnessAndOutlineBounds | Runtime/Scripts/RoundedImage.cs:272-276 | Softness lies in [0, min(w,h)] and is not halved. The outline width lies in [0, min(w,h)/2]. |
| Validator.ValidateIdempotent | Runtime/Scripts/RoundedImage.cs:266-281 | Validating twice against the same extent equals validating once. |
| Validator.ValidateIsNearest | Runtime/Scripts/RoundedImage.cs:275-280 | For every geometric field, no legal store is closer to the input than the validated one. |
| Validator.ValidateMonotone | Runtime/Scripts/RoundedImage.cs:266-281 | When the smaller extent is not degenerate, an extent no larger on either side gives a field-by-field smaller or equal store. |
| Validator.ValidateShrinkAbsorbs | Runtime/Scripts/RoundedImage.cs:266-281 | When the smaller extent is not degenerate, validating at a larger extent and then at a smaller one equals validating at the smaller one. |
| Validator.DegenerateBreaksMonotone | Runtime/Scripts/RoundedImage.cs:266-281 | Neither shrink property holds when the smaller extent is degenerate. With a radius of 100, (0, 0) keeps 100 while (100, 100) clips to 50, and validating at (0, 0) after (100, 100) keeps 50, not 100. |
| Validator.ValidateEachCornerLikeAll | Runtime/Scripts/RoundedImage.cs:68-123 | Writing the four corners one at a time, with a validation after each, stores the same as writing all four and validating once. |
| Validator.ClampExamples | Runtime/Scripts/RoundedImage.cs:272-280 | At (100, 40): radius 999 becomes 20, a negative radius becomes 0, softness 500 becomes 40 and outline 25 becomes 20. |
| Validator.DegenerateExample | Runtime/Scripts/RoundedImage.cs:270 | At (0, 0), or with one side of 0.0005, a radius of 50 stays 50. |
| Material.Sync | Runtime/Scripts/RoundedImage.cs:236-256 | One synchronisation writes exactly the nine uniforms, in the order `_Radii`, `_FillColor`, `_MainTex`, `_Outline`, `_OutlineColor`, `_OutlineTexture`, `_Size`, `_Softness`, `_Color`. |
| Material.UniformOrderIsComplete | Runtime/Scripts/RoundedImage.cs:244-255 | Every uniform occurs exactly once in the write order. |
| Material.NameIsInjective | Runtime/Scripts/RoundedImage.cs:10-20 | The nine shader property names are pairwise distinct. |
| Material.SyncWritesEachUniformOnce | Runtime/Scripts/RoundedImage.cs:244-255 | A synchronisation writes each uniform exactly once. In particular it writes one `_Radii` vector. |
| Material.Flush | Runtime/Scripts/RoundedImage.cs:244-255 | Writing to the material never removes a uniform: everything the material held stays present, and every written uniform is present afterwards. |
| Material.FlushLastWriteWins | Runtime/Scripts/RoundedImage.cs:244-255 | After a sequence of writes, a uniform holds the value of its last write. |
| Material.FlushSyncOverwrites | Runtime/Scripts/RoundedImage.cs:236-256 | A synchronisation overwrites the whole uniform block. The result does not depend on what the material held before. |
| Material.SyncRoundTrip | Runtime/Scripts/RoundedImage.cs:238-255 | The shader reads back exactly what the store means. Corners are (tl,tl,tl,tl) in unified mode and each corner's own radius otherwise. The fill is clear when disabled, and the outline is 0 when disabled. A null sprite gives a null texture. The size is (width, height). |
| Material.UnifiedHidesOtherCorners | Runtime/Scripts/RoundedImage.cs:240-242 | In unified mode the top-right, bottom-left and bottom-right radii never reach the shader. In per-corner mode, changing any of them changes what is sent. |
| Material.FillColorReachesShaderIffEnabled | Runtime/Scripts/RoundedImage.cs:246 | Changing the stored fill colour leaves the writes unchanged if and only if the fill is disabled. |
| Material.OutlineWidthReachesShaderIffEnabled | Runtime/Scripts/RoundedImage.cs:249 | Changing the stored outline width leaves the writes unchanged if and only if the outline is disabled. |
| Component.UpdateMaterial | Runtime/Scripts/RoundedImage.cs:224-228 | Re-synchronises without touching the state. The writes are one synchronisation of that state. |
| Component.ClampAndUpdateMaterial | Runtime/Scripts/RoundedImage.cs:218-222 | The store is clipped into range, or left as is while the extent is degenerate. The surface is untouched. The material receives the clipped store. |
| Component.SetRadius | Runtime/Scripts/RoundedImage.cs:68-79 | All four corners are written, then clamped in a single pass, so the four corner getters and `radius` read the same value. The material receives the final state. |
| Component.BulkRadiusSendsOneVector | Runtime/Scripts/RoundedImage.cs:68-79 | The bulk setter sends exactly one `_Radii` vector, and every corner getter reads back the same value. |
| Component.BulkRadiusAtDegenerateExtent | Runtime/Scripts/RoundedImage.cs:68-79 | At extent (0, 0) the bulk setter stores 50 on every corner unclamped, and the store is not legal for that extent. |
| Component.SetTopLeftRadius | Runtime/Scripts/RoundedImage.cs:82-90 | Writes the corner and clips the whole store into range, or keeps it unclipped while the extent is degenerate. The material receives the result. |
| Component.SetTopRightRadius | Runtime/Scripts/RoundedImage.cs:93-101 | Same as the top-left setter, for the top-right corner. |
| Component.SetBottomLeftRadius | Runtime/Scripts/RoundedImage.cs:104-112 | Same as the top-left setter, for the bottom-left corner. |
| Component.SetBottomRightRadius | Runtime/Scripts/RoundedImage.cs:115-123 | Same as the top-left setter, for the bottom-right corner. |
| Component.SetOutline | Runtime/Scripts/RoundedImage.cs:174-182 | Writes the outline width and clips the store into range, or keeps it unclipped while the extent is degenerate. The material receives the result. |
| Component.SetSoftness | Runtime/Scripts/RoundedImage.cs:208-216 | Writes the softness and clips the store into range, or keeps it unclipped while the extent is degenerate. The material receives the result. |
| Component.SetUnified | Runtime/Scripts/RoundedImage.cs:57-65 | Changes only the mode. All four stored radii and the other geometric fields are kept, even out-of-range ones. The material is re-synchronised. |
| Component.SetFillEnabled | Runtime/Scripts/RoundedImage.cs:128-136 | Changes only the fill flag. Geometry is not clamped. The material is re-synchronised. |
| Component.SetFillColor | Runtime/Scripts/RoundedImage.cs:139-147 | Changes only the fill colour. Geometry is not clamped. The material is re-synchronised. |
| Component.SetFillSprite | Runtime/Scripts/RoundedImage.cs:150-158 | Changes only the host image's sprite. The store is untouched. The material is re-synchronised. |
| Component.SetOutlineEnabled | Runtime/Scripts/RoundedImage.cs:163-171 | Changes only the outline flag. Geometry is not clamped. The material is re-synchronised. |
| Component.SetOutlineColor | Runtime/Scripts/RoundedImage.cs:185-193 | Changes only the outline colour. Geometry is not clamped. The material is re-synchronised. |
| Component.SetOutlineSprite | Runtime/Scripts/RoundedImage.cs:196-204 | Changes only the outline sprite. Geometry is not clamped. The material is re-synchronised. |
| Component.OnDimensionsChange | Runtime/Scripts/RoundedImage.cs:230-234 | A size change only re-synchronises with the new extent. The store is exactly unchanged. |
| Component.OnValidate | Runtime/Scripts/RoundedImage.cs:258-264 | The editor hook clips the store into range, or leaves it unchanged while the extent is degenerate. It sends no writes of its own. |
| Component.Perform | Runtime/Scripts/RoundedImage.cs:57-234 | Every setter and size notification leaves the material holding one synchronisation of the final state. |
| Component.Run | Runtime/Scripts/RoundedImage.cs:218-234 | A sequence of edits sends exactly nine writes per edit. |
| Component.RunAppend | Runtime/Scripts/RoundedImage.cs:218-234 | Running two sequences back to back equals running the first, then the second from the state the first left, with the first's writes sent first. |
| Component.RunBlock | Runtime/Scripts/RoundedImage.cs:218-234 | No edit is skipped and none is batched: the k-th block of nine writes is the k-th edit performed on the state the first k edits left, and that edit produces the next state. |
| Component.NonGeometricEditsDoNotClamp | Runtime/Scripts/RoundedImage.cs:128-204 | Flag, colour and sprite setters and size changes keep every geometric field. This includes fields that are out of range. |
| Component.PropertyEditKeepsLegal | Runtime/Scripts/RoundedImage.cs:57-216 | With a non-degenerate extent, a geometric setter always leaves the store legal, and the other setters keep it legal. No setter changes the extent. |
| Component.RunKeepsLegal | Runtime/Scripts/RoundedImage.cs:57-216 | Legality is an invariant of any sequence of property assignments. |
| Component.RunLeavesFinalState | Runtime/Scripts/RoundedImage.cs:218-256 | After any non-empty sequence of operations, the material holds the synchronisation of the final state, whatever it held before. |
| Component.CornerSettersStoreLikeBulk | Runtime/Scripts/RoundedImage.cs:68-123 | The four corner setters, applied in turn, store the same as the bulk `radius` setter. |
| Component.BulkRadiusMatchesFourSetters | Runtime/Scripts/RoundedImage.cs:68-123 | Setting the corners one by one reaches the bulk setter's state but sends four `_Radii` vectors. The bulk setter sends one. |
| Component.UnifiedRoundTrip | Runtime/Scripts/RoundedImage.cs:57-65 | Switching unified mode on and back restores the component exactly, with all four radii unchanged. |
| Component.UnifiedModeOnShader | Runtime/Scripts/RoundedImage.cs:240-244 | After a mode toggle, the shader sees the top-left radius on every corner in unified mode, and each corner's own radius otherwise. |
| Component.ShrinkLeavesRadiusUnclamped | Runtime/Scripts/RoundedImage.cs:230-234 | A radius of 50, legal at (100, 100), still reaches the shader as 50 after a shrink to (60, 60). `OnValidate` then clamps it to 30. |
| Component.DegenerateExtentScenario | Runtime/Scripts/RoundedImage.cs:68-123 | At (0, 0) a radius of 50 is stored unclamped. It still reads 50 after growing to (100, 100) and after shrinking to (60, 60). The next geometric setter clamps it to 30. |
| Serialization.NameIsInjective | Runtime/Scripts/RoundedImage.cs:22-39 | The fourteen stored names, current and former, are pairwise distinct. |
| Serialization.RenamesMatchSlots | Runtime/Scripts/RoundedImage.cs:29-35 | The rename table holds exactly the three renames: `_tint` to `_fillColor`, `_outline` to `_outlineEnabled`, `_outlineSize` to `_outline`. The slots' current names are exactly the twelve current field names. |
| Serialization.Save | Runtime/Scripts/RoundedImage.cs:22-39 | A store is saved under exactly the twelve current names. `_outline` holds the float width and `_outlineEnabled` holds the flag. |
| Serialization.Load | Runtime/Scripts/RoundedImage.cs:22-39 | Under a loader that checks the stored kind, each field takes the value under its current name if that has the field's kind. Otherwise it takes the value under its former name if that has the field's kind. Otherwise it keeps its initialiser. |
| Serialization.LoadSaveRoundTrip | Runtime/Scripts/RoundedImage.cs:22-39 | Loading a saved store gives it back unchanged. |
| Serialization.LoadEmptyIsDefaults | Runtime/Scripts/RoundedImage.cs:22-39 | With nothing stored, every field takes its initialiser. |
| Serialization.LoadLegacyDocument | Runtime/Scripts/RoundedImage.cs:29-35 | Under a loader that checks the stored kind, a pre-rename document migrates. The fill colour comes from `_tint`, the outline flag from the bool `_outline`, and the width from `_outlineSize`. |
| Serialization.CurrentNameWins | Runtime/Scripts/RoundedImage.cs:29-30 | A value under the current name takes precedence over one under the former name. |
| Serialization.ReusedNameNotMisread | Runtime/Scripts/RoundedImage.cs:32-35 | Under a loader that checks the stored kind, the reused name `_outline` is not misread. If it holds a float, that float is the width and is not taken as the flag. |
| Serialization.NameFirstLoad | Runtime/Scripts/RoundedImage.cs:32-35 | Under a loader that goes by name alone, whatever is stored under `_outline` decides the width: a float is the width, and a bool becomes 1 or 0, whatever `_outlineSize` holds. `_outlineSize` is read only when `_outline` is absent. A float under `_outline` is taken as the flag when `_outlineEnabled` is absent. |
| Serialization.NameFirstLoadSaveRoundTrip | Runtime/Scripts/RoundedImage.cs:22-39 | A document in the current layout loads the same under either loader, and gives the saved store back. |
| Serialization.LegacyWidthLost | Runtime/Scripts/RoundedImage.cs:32-35 | An old document with `_outline: true` and `_outlineSize: 8` loads a width of 1 by name alone, and 8 under the kind-checking loader. Both loaders restore the flag. |

## Left out

- The lazy default material (`defaultMaterial`, lines 42-53) needs `Shader.Find` and asset creation. It has no logic beyond that.
- `base.UpdateMaterial`, `base.OnValidate` and `base.OnRectTransformDimensionsChange` are Unity internals. This includes the deferred rebuild that Unity may schedule, which later calls `UpdateMaterial` again. The model covers only what this class does itself.
- `materialForRendering` is modelled as a map from uniform to value. The model does not cover how Unity resolves the material or what the shader draws.
- `sprite.texture` is modelled as a field of the sprite. Only null versus non-null matters.
- The host image's `sprite` setter and `color` property are Unity's own. `fillSprite` is modelled as a plain write of the sprite. The base colour is read but never set.
- IEEE float behaviour is not modelled: rounding, NaN and infinities. Values are `real`, and `0.001f` is taken as exactly 0.001.
- Colours are opaque values. `Clear` and `White` are the only ones named.
- Serialization: Unity's deserialiser is not part of this model. `Load` assumes that the current name is read first and the former name second, and that a stored value is used only when its kind matches the field. With neither present, the field keeps its initialiser. `NameFirstLoad` models the other plausible reading, by name alone; which of the two Unity follows cannot be settled from this class. The serialised `_defaultMaterial` reference is not modelled.
- `Editor/Scripts/RoundedImageEditor.cs` (inspector layout, menu entry, icons, undo) and `Editor/Scripts/EditorGUIHelpers.cs` (a reflective drag field) are editor glue and are not part of this model.
- Concurrency: the component runs on Unity's single UI thread. A sequence of operations is modelled as `Component.Run`.

## Findings

| source | as written | input that shows it | evidently intended | confidence | as-written member | corrected member |
|---|---|---|---|---|---|---|
| Runtime/Scripts/RoundedImage.cs:32-35 | The float width `_outline` reuses the name under which the old layout stored the bool flag, and takes `_outlineSize` as its former name. A loader that reads the current name first and goes by name alone finds the old bool under `_outline` and never reads `_outlineSize`. | An old document `{_outline: true, _outlineSize: 8}` loads width 1 instead of 8. | The width migrates from `_outlineSize`, and the flag from the old `_outline`. | low, not executed: depends on how Unity's deserialiser treats a stored value whose kind differs from the field | Serialization.NameFirstLoad, Serialization.LegacyWidthLost | Serialization.Load, Serialization.LoadLegacyDocument |

=== FILE: component.dfy ===
/**
 The `RoundedImage` component: its property setters, the extent-change
 notification and the editor's validation hook, each modelled as a
 function from the component's state to the next state together with the
 uniform writes it sends to the material.
 */
module Component {
  import opened Values
  import opened Store
  import opened Validator
  import Material

  /** The component's store together with what it reads from its host
      image: extent, base colour and base (fill) sprite. */
  datatype RoundedImage = RoundedImage(params: Params, surface: Material.Surface) {
    /** The rectangle's current size. */
    function Size(): Extent {
      surface.extent
    }
  }

  /** The state after an operation and the uniform writes it sent. */
  datatype Step = Step(image: RoundedImage, writes: seq<Material.Write>)

  /** The writes of `r` are one synchronisation of its final state: the
      material never sees an intermediate state. */
  predicate Synced(r: Step) {
    r.writes == Material.Sync(r.image.params, r.image.surface)
  }

  /** `r` is what writing the store `written` and then clamping gives:
      the surface is untouched, the store is `written` clipped into range
      (or `written` itself while the extent is degenerate) and the
      material sees the result. */
  predicate Settled(r: Step, img: RoundedImage, written: Params) {
    && r.image.surface == img.surface
    && Synced(r)
    && (Degenerate(img.Size()) ==> r.image.params == written)
    && (!Degenerate(img.Size()) ==> ClippedFrom(r.image.params, written, img.Size()))
  }

  /** `UpdateMaterial`: resynchronise the material, clamp nothing. */
  function UpdateMaterial(img: RoundedImage): (r: Step)
    ensures r.image == img && Synced(r)
  {
    Step(img, Material.Sync(img.params, img.surface))
  }

  /** `ClampAndUpdateMaterial`: validate, then synchronise. */
  function ClampAndUpdateMaterial(img: RoundedImage): (r: Step)
    ensures Settled(r, img, img.params)
  {
    UpdateMaterial(img.(params := Validate(img.params, img.Size())))
  }

  // ---------------------------------------------------------------------
  // Geometry setters: write the field, then validate and synchronise.

  /** The bulk `radius` setter: all four corners in one validation and one
      synchronisation, so the material receives a single `_Radii` vector. */
  function SetRadius(img: RoundedImage, v: real): (r: Step)
    ensures Settled(r, img, img.params.(tlRadius := v, trRadius := v, blRadius := v, brRadius := v))
    ensures r.image.params.trRadius == r.image.params.blRadius == r.image.params.brRadius
         == r.image.params.Radius()
  {
    ClampAndUpdateMaterial(img.(params := img.params.(
      tlRadius := v, trRadius := v, blRadius := v, brRadius := v)))
  }

  /** The bulk setter sends exactly one `_Radii` vector, and every corner
      reads back the same value. */
  lemma BulkRadiusSendsOneVector(img: RoundedImage, v: real)
    ensures Material.Count(SetRadius(img, v).writes, Material.Radii) == 1
    ensures forall c :: SetRadius(img, v).image.params.CornerRadius(c) == SetRadius(img, v).image.params.Radius()
  {
    var r := SetRadius(img, v);
    Material.SyncWritesEachUniformOnce(r.image.params, r.image.surface, Material.Radii);
  }

  /** At a degenerate extent nothing is clamped: the bulk setter stores its
      value on every corner as written, even beyond the legal range. */
  lemma BulkRadiusAtDegenerateExtent(c: Color, s: Option<Sprite>)
    ensures var r := SetRadius(RoundedImage(Defaults, Material.Surface(Extent(0.0, 0.0), c, s)), 50.0);
      && r.image.params.tlRadius == r.image.params.trRadius == 50.0
      && r.image.params.blRadius == r.image.params.brRadius == 50.0
      && !Legal(r.image.params, r.image.Size())
  {
  }

  function SetTopLeftRadius(img: RoundedImage, v: real): (r: Step)
    ensures Settled(r, img, img.params.(tlRadius := v))
  {
    ClampAndUpdateMaterial(img.(params := img.params.(tlRadius := v)))
  }

  function SetTopRightRadius(img: RoundedImage, v: real): (r: Step)
    ensures Settled(r, img, img.params.(trRadius := v))
  {
    ClampAndUpdateMaterial(img.(params := img.params.(trRadius := v)))
  }

  function SetBottomLeftRadius(img: RoundedImage, v: real): (r: Step)
    ensures Settled(r, img, img.params.(blRadius := v))
  {
    ClampAndUpdateMaterial(img.(params := img.params.(blRadius := v)))
  }

  function SetBottomRightRadius(img: RoundedImage, v: real): (r: Step)
    ensures Settled(r, img, img.params.(brRadius := v))
  {
    ClampAndUpdateMaterial(img.(params := img.params.(brRadius := v)))
  }

  function SetOutline(img: RoundedImage, v: real): (r: Step)
    ensures Settled(r, img, img.params.(outline := v))
  {
    ClampAndUpdateMaterial(img.(params := img.params.(outline := v)))
  }

  function SetSoftness(img: RoundedImage, v: real): (r: Step)
    ensures Settled(r, img, img.params.(softness := v))
  {
    ClampAndUpdateMaterial(img.(params := img.params.(softness := v)))
  }

  // ---------------------------------------------------------------------
  // Mode, flag, colour and sprite setters: write the field, then
  // synchronise. They never clamp, so they keep every geometric field,
  // legal or not.

  function SetUnified(img: RoundedImage, b: bool): (r: Step)
    ensures Synced(r) && r.image.surface == img.surface
    ensures SameGeometry(r.image.params, img.params)
    ensures SameAppearance(r.image.params, img.params.(unified := b))
  {
    UpdateMaterial(img.(params := img.params.(unified := b)))
  }

  function SetFillEnabled(img: RoundedImage, b: bool): (r: Step)
    ensures Synced(r) && r.image.surface == img.surface
    ensures SameGeometry(r.image.params, img.params)
    ensures SameAppearance(r.image.params, img.params.(fillEnabled := b))
  {
    UpdateMaterial(img.(params := img.params.(fillEnabled := b)))
  }

  function SetFillColor(img: RoundedImage, c: Color): (r: Step)
    ensures Synced(r) && r.image.surface == img.surface
    ensures SameGeometry(r.image.params, img.params)
    ensures SameAppearance(r.image.params, img.params.(fillColor := c))
  {
    UpdateMaterial(img.(params := img.params.(fillColor := c)))
  }

  /** `fillSprite` writes the host image's own sprite. */
  function SetFillSprite(img: RoundedImage, s: Option<Sprite>): (r: Step)
    ensures Synced(r) && r.image.params == img.params
    ensures r.image.surface.sprite == s
    ensures r.image.Size() == img.Size() && r.image.surface.color == img.surface.color
  {
    UpdateMaterial(img.(surface := img.surface.(sprite := s)))
  }

  function SetOutlineEnabled(img: RoundedImage, b: bool): (r: Step)
    ensures Synced(r) && r.image.surface == img.surface
    ensures SameGeometry(r.image.params, img.params)
    ensures SameAppearance(r.image.params, img.params.(outlineEnabled := b))
  {
    UpdateMaterial(img.(params := img.params.(outlineEnabled := b)))
  }

  function SetOutlineColor(img: RoundedImage, c: Color): (r: Step)
    ensures Synced(r) && r.image.surface == img.surface
    ensures SameGeometry(r.image.params, img.params)
    ensures SameAppearance(r.image.params, img.params.(outlineColor := c))
  {
    UpdateMaterial(img.(params := img.params.(outlineColor := c)))
  }

  function SetOutlineSprite(img: RoundedImage, s: Option<Sprite>): (r: Step)
    ensures Synced(r) && r.image.surface == img.surface
    ensures SameGeometry(r.image.params, img.params)
    ensures SameAppearance(r.image.params, img.params.(outlineSprite := s))
  {
    UpdateMaterial(img.(params := img.params.(outlineSprite := s)))
  }

  // ---------------------------------------------------------------------
  // Notifications from the host

  /** `OnRectTransformDimensionsChange`: the material is told the new size
      but the store is not validated again, so values legal for the old
      extent stay stored even when they exceed the new one. */
  function OnDimensionsChange(img: RoundedImage, e: Extent): (r: Step)
    ensures Synced(r) && r.image.params == img.params
    ensures r.image.Size() == e
    ensures r.image.surface.color == img.surface.color && r.image.surface.sprite == img.surface.sprite
  {
    UpdateMaterial(img.(surface := img.surface.(extent := e)))
  }

  /** `OnValidate` (editor builds only): validates the store and sends no
      uniform writes of its own. */
  function OnValidate(img: RoundedImage): (r: RoundedImage)
    ensures r.surface == img.surface
    ensures Degenerate(img.Size()) ==> r == img
    ensures !Degenerate(img.Size()) ==> ClippedFrom(r.params, img.params, img.Size())
  {
    img.(params := Validate(img.params, img.Size()))
  }

  // ---------------------------------------------------------------------
  // Sequences of operations

  /** One property assignment or extent-change notification. */
  datatype Edit =
    | Unified(b: bool)
    | Radius(v: real)
    | TopLeftRadius(v: real)
    | TopRightRadius(v: real)
    | BottomLeftRadius(v: real)
    | BottomRightRadius(v: real)
    | FillEnabled(b: bool)
    | FillColor(c: Color)
    | FillSprite(s: Option<Sprite>)
    | OutlineEnabled(b: bool)
    | Outline(v: real)
    | OutlineColor(c: Color)
    | OutlineSprite(s: Option<Sprite>)
    | Softness(v: real)
    | DimensionsChange(e: Extent)
  {
    /** The setter writes a geometric field and therefore clamps. */
    predicate Geometric() {
      Radius? || TopLeftRadius? || TopRightRadius? || BottomLeftRadius? ||
      BottomRightRadius? || Outline? || Softness?
    }
  }

  /** The setter or notification an edit stands for. Each one leaves the
      material showing exactly the component's final state. */
  function Perform(img: RoundedImage, edit: Edit): (r: Step)
    ensures Synced(r) && |r.writes| == 9
  {
    match edit
    case Unified(b) => SetUnified(img, b)
    case Radius(v) => SetRadius(img, v)
    case TopLeftRadius(v) => SetTopLeftRadius(img, v)
    case TopRightRadius(v) => SetTopRightRadius(img, v)
    case BottomLeftRadius(v) => SetBottomLeftRadius(img, v)
    case BottomRightRadius(v) => SetBottomRightRadius(img, v)
    case FillEnabled(b) => SetFillEnabled(img, b)
    case FillColor(c) => SetFillColor(img, c)
    case FillSprite(s) => SetFillSprite(img, s)
    case OutlineEnabled(b) => SetOutlineEnabled(img, b)
    case Outline(v) => SetOutline(img, v)
    case OutlineColor(c) => SetOutlineColor(img, c)
    case OutlineSprite(s) => SetOutlineSprite(img, s)
    case Softness(v) => SetSoftness(img, v)
    case DimensionsChange(e) => OnDimensionsChange(img, e)
  }

  /** Performs the edits in order, collecting every uniform write; each
      edit sends exactly one full block of nine writes. */
  function Run(img: RoundedImage, edits: seq<Edit>): (r: Step)
    ensures |r.writes| == 9 * |edits|
    decreases |edits|
  {
    if edits == [] then Step(img, [])
    else
      var first := Perform(img, edits[0]);
      var rest := Run(first.image, edits[1..]);
      Step(rest.image, first.writes + rest.writes)
  }

  // ---------------------------------------------------------------------
  // Properties

  /** Running a concatenation runs the first part and then the second part
      from the state the first part left, sending the first part's writes
      before the second's. */
  lemma {:induction false} RunAppend(img: RoundedImage, a: seq<Edit>, b: seq<Edit>)
    ensures var first := Run(img, a);
      var second := Run(first.image, b);
      Run(img, a + b) == Step(second.image, first.writes + second.writes)
    decreases |a|
  {
    if a == [] {
      assert a + b == b;
    } else {
      var head := Perform(img, a[0]);
      assert (a + b)[0] == a[0];
      assert (a + b)[1..] == a[1..] + b;
      RunAppend(head.image, a[1..], b);
      var first := Run(head.image, a[1..]);
      var second := Run(first.image, b);
      assert head.writes + (first.writes + second.writes)
          == (head.writes + first.writes) + second.writes;
    }
  }

  /** No edit is skipped and none is batched: the k-th block of nine writes
      is the k-th edit performed on the state the first k edits left. */
  lemma RunBlock(img: RoundedImage, edits: seq<Edit>, k: nat)
    requires k < |edits|
    ensures var before := Run(img, edits[..k]);
      && Run(img, edits).writes[9 * k .. 9 * k + 9] == Perform(before.image, edits[k]).writes
      && Run(img, edits[..k + 1]).image == Perform(before.image, edits[k]).image
  {
    var before := Run(img, edits[..k]);
    var step := Perform(before.image, edits[k]);
    var tail := Run(step.image, edits[k + 1..]);
    assert edits == edits[..k] + edits[k..];
    RunAppend(img, edits[..k], edits[k..]);
    assert edits[k..][0] == edits[k] && edits[k..][1..] == edits[k + 1..];
    assert Run(before.image, edits[k..]).writes == step.writes + tail.writes;
    assert Run(img, edits).writes == before.writes + (step.writes + tail.writes);
    assert edits[..k + 1] == edits[..k] + [edits[k]];
    RunAppend(img, edits[..k], [edits[k]]);
    assert [edits[k]][1..] == [];
  }

  /** Mode, flag, colour and sprite setters and extent changes never clamp:
      every geometric field keeps its value, even an out-of-range one. */
  lemma NonGeometricEditsDoNotClamp(img: RoundedImage, edit: Edit)
    requires !edit.Geometric()
    ensures SameGeometry(Perform(img, edit).image.params, img.params)
  {
  }

  /** Property setters keep the extent, and with a non-degenerate extent
      the store is legal after every geometric setter and stays legal
      through the others. */
  lemma PropertyEditKeepsLegal(img: RoundedImage, edit: Edit)
    requires !edit.DimensionsChange?
    requires !Degenerate(img.Size())
    requires Legal(img.params, img.Size()) || edit.Geometric()
    ensures Perform(img, edit).image.Size() == img.Size()
    ensures Legal(Perform(img, edit).image.params, img.Size())
  {
  }

  /** Legality is an invariant of any sequence of property assignments. */
  lemma {:induction false} RunKeepsLegal(img: RoundedImage, edits: seq<Edit>)
    requires forall i :: 0 <= i < |edits| ==> !edits[i].DimensionsChange?
    requires !Degenerate(img.Size()) && Legal(img.params, img.Size())
    ensures Run(img, edits).image.Size() == img.Size()
    ensures Legal(Run(img, edits).image.params, img.Size())
    decreases |edits|
  {
    if edits != [] {
      PropertyEditKeepsLegal(img, edits[0]);
      RunKeepsLegal(Perform(img, edits[0]).image, edits[1..]);
    }
  }

  /** Last write wins: after any non-empty sequence of operations the
      material holds the synchronisation of the final state, whatever it
      held before and whichever path led there. */
  lemma {:induction false} RunLeavesFinalState(sink: Material.Sink, img: RoundedImage, edits: seq<Edit>)
    requires edits != []
    ensures Material.Flush(sink, Run(img, edits).writes)
         == Material.Rendered(Run(img, edits).image.params, Run(img, edits).image.surface)
    decreases |edits|
  {
    var first := Perform(img, edits[0]);
    var rest := Run(first.image, edits[1..]);
    Material.FlushAppend(sink, first.writes, rest.writes);
    var mid := Material.Flush(sink, first.writes);
    Material.FlushSyncOverwrites(sink, first.image.params, first.image.surface);
    if edits[1..] != [] {
      RunLeavesFinalState(mid, first.image, edits[1..]);
    } else {
      assert first.writes + rest.writes == first.writes;
    }
  }

  /** The four corner edits the bulk setter replaces. */
  function CornerEdits(v: real): seq<Edit> {
    [TopLeftRadius(v), TopRightRadius(v), BottomLeftRadius(v), BottomRightRadius(v)]
  }

  /** Running the four corner edits is the four corner setters in order. */
  lemma RunCornerEdits(img: RoundedImage, v: real)
    ensures var s1 := SetTopLeftRadius(img, v);
      var s2 := SetTopRightRadius(s1.image, v);
      var s3 := SetBottomLeftRadius(s2.image, v);
      var s4 := SetBottomRightRadius(s3.image, v);
      Run(img, CornerEdits(v)) == Step(s4.image, s1.writes + s2.writes + s3.writes + s4.writes)
  {
    var s1 := SetTopLeftRadius(img, v);
    var s2 := SetTopRightRadius(s1.image, v);
    var s3 := SetBottomLeftRadius(s2.image, v);
    var s4 := SetBottomRightRadius(s3.image, v);
    var edits := CornerEdits(v);
    assert edits[1..] == [TopRightRadius(v), BottomLeftRadius(v), BottomRightRadius(v)];
    assert edits[1..][1..] == [BottomLeftRadius(v), BottomRightRadius(v)];
    assert edits[1..][1..][1..] == [BottomRightRadius(v)];
    assert edits[1..][1..][1..][1..] == [];
    assert Run(s4.image, []) == Step(s4.image, []);
    assert Run(s3.image, edits[1..][1..][1..]) == Step(s4.image, s4.writes + []);
    assert Run(s2.image, edits[1..][1..]) == Step(s4.image, s3.writes + (s4.writes + []));
    assert Run(s1.image, edits[1..]) == Step(s4.image, s2.writes + (s3.writes + (s4.writes + [])));
    assert s1.writes + (s2.writes + (s3.writes + (s4.writes + [])))
        == s1.writes + s2.writes + s3.writes + s4.writes;
  }

  /** Clamping after each corner stores the same as clamping once after
      all four. */
  lemma CornerSettersStoreLikeBulk(img: RoundedImage, v: real)
    ensures var s1 := SetTopLeftRadius(img, v);
      var s2 := SetTopRightRadius(s1.image, v);
      var s3 := SetBottomLeftRadius(s2.image, v);
      SetBottomRightRadius(s3.image, v).image == SetRadius(img, v).image
  {
    var s1 := SetTopLeftRadius(img, v);
    var s2 := SetTopRightRadius(s1.image, v);
    var s3 := SetBottomLeftRadius(s2.image, v);
    ValidateEachCornerLikeAll(img.params, img.Size(), v);
  }

  /** Setting the four corners one by one stores the same as the bulk
      setter, but sends four `_Radii` vectors instead of one. */
  lemma BulkRadiusMatchesFourSetters(img: RoundedImage, v: real)
    ensures Run(img, CornerEdits(v)).image == SetRadius(img, v).image
    ensures Material.Count(Run(img, CornerEdits(v)).writes, Material.Radii) == 4
  {
    var s1 := SetTopLeftRadius(img, v);
    var s2 := SetTopRightRadius(s1.image, v);
    var s3 := SetBottomLeftRadius(s2.image, v);
    var s4 := SetBottomRightRadius(s3.image, v);
    RunCornerEdits(img, v);
    CornerSettersStoreLikeBulk(img, v);
    Material.SyncWritesEachUniformOnce(s1.image.params, s1.image.surface, Material.Radii);
    Material.SyncWritesEachUniformOnce(s2.image.params, s2.image.surface, Material.Radii);
    Material.SyncWritesEachUniformOnce(s3.image.params, s3.image.surface, Material.Radii);
    Material.SyncWritesEachUniformOnce(s4.image.params, s4.image.surface, Material.Radii);
    Material.CountAppend(s1.writes, s2.writes, Material.Radii);
    Material.CountAppend(s1.writes + s2.writes, s3.writes, Material.Radii);
    Material.CountAppend(s1.writes + s2.writes + s3.writes, s4.writes, Material.Radii);
  }

  /** Toggling unified mode never touches the stored radii: switching it on
      and back restores the component exactly. */
  lemma UnifiedRoundTrip(img: RoundedImage)
    ensures SetUnified(SetUnified(img, true).image, img.params.unified).image == img
  {
  }

  /** What the shader receives after a toggle: the top-left radius on every
      corner in unified mode, each corner's own stored radius otherwise. */
  lemma UnifiedModeOnShader(sink: Material.Sink, img: RoundedImage, b: bool)
    ensures var d := Material.Decode(Material.Flush(sink, SetUnified(img, b).writes));
      && d.Some?
      && (b ==> d.value.topLeft == d.value.topRight == d.value.bottomLeft
                == d.value.bottomRight == img.params.tlRadius)
      && (!b ==> && d.value.topLeft == img.params.tlRadius
                 && d.value.topRight == img.params.trRadius
                 && d.value.bottomLeft == img.params.blRadius
                 && d.value.bottomRight == img.params.brRadius)
  {
    var r := SetUnified(img, b);
    Material.SyncRoundTrip(sink, r.image.params, r.image.surface);
  }

  /** An extent change does not re-validate: a radius legal at (100, 100)
      reaches the shader unchanged after a shrink to (60, 60), beyond the
      new half side of 30, until the next clamping setter or `OnValidate`. */
  lemma ShrinkLeavesRadiusUnclamped(sink: Material.Sink, s: Material.Surface)
    requires s.extent == Extent(100.0, 100.0)
    ensures var img := RoundedImage(Defaults.(tlRadius := 50.0), s);
      var r := OnDimensionsChange(img, Extent(60.0, 60.0));
      && Legal(img.params, img.Size())
      && !Legal(r.image.params, r.image.Size())
      && Material.Decode(Material.Flush(sink, r.writes)).Some?
      && Material.Decode(Material.Flush(sink, r.writes)).value.topLeft == 50.0
      && OnValidate(r.image).params.tlRadius == 30.0
  {
    var img := RoundedImage(Defaults.(tlRadius := 50.0), s);
    var r := OnDimensionsChange(img, Extent(60.0, 60.0));
    Material.SyncRoundTrip(sink, r.image.params, r.image.surface);
  }

  /** At a degenerate extent a radius of 50 is stored unclamped; after the
      extent grows to (100, 100) it still reads 50, and shrinking to
      (60, 60) keeps it at 50 until a geometric setter clamps it to 30. */
  lemma DegenerateExtentScenario(s: Material.Surface)
    requires s.extent == Extent(0.0, 0.0)
    ensures var s1 := SetTopLeftRadius(RoundedImage(Defaults, s), 50.0);
      var s2 := OnDimensionsChange(s1.image, Extent(100.0, 100.0));
      var s3 := OnDimensionsChange(s2.image, Extent(60.0, 60.0));
      var s4 := SetSoftness(s3.image, s3.image.params.softness);
      && s1.image.params.tlRadius == 50.0
      && s2.image.params.tlRadius == 50.0
      && s3.image.params.tlRadius == 50.0
      && s4.image.params.tlRadius == 30.0
  {
  }
}

=== FILE: material.dfy ===
/**
 `UpdateRoundedMaterial`: the fixed, ordered block of nine named uniform
 writes that hands the store to the shader, the sink that receives them
 (last write wins), and the shader-side reading of that sink.
 */
module Material {
  import opened Values
  import opened Store

  /** The nine shader uniforms the component writes. */
  datatype Uniform =
    | Radii | FillColor | MainTex | Outline | OutlineColor | OutlineTexture
    | Size | Softness | BaseColor

  /** The shader property name of each uniform. */
  function Name(u: Uniform): string {
    match u
    case Radii => "_Radii"
    case FillColor => "_FillColor"
    case MainTex => "_MainTex"
    case Outline => "_Outline"
    case OutlineColor => "_OutlineColor"
    case OutlineTexture => "_OutlineTexture"
    case Size => "_Size"
    case Softness => "_Softness"
    case BaseColor => "_Color"
  }

  /** The order in which the synchroniser writes the uniforms. */
  const UniformOrder: seq<Uniform> :=
    [Radii, FillColor, MainTex, Outline, OutlineColor, OutlineTexture, Size, Softness, BaseColor]

  /** A value written to a uniform: `SetVector`, `SetFloat`, `SetColor`
      or `SetTexture`. */
  datatype Value =
    | Vector4(x: real, y: real, z: real, w: real)
    | Vector2(u: real, v: real)
    | Float(f: real)
    | ColorValue(c: Color)
    | TextureValue(t: Option<Texture>)

  datatype Write = Write(uniform: Uniform, value: Value)

  /** What the synchroniser reads from the host image besides the store:
      the rectangle's extent, the base colour and the base (fill) sprite. */
  datatype Surface = Surface(extent: Extent, color: Color, sprite: Option<Sprite>)

  /** The uniforms a write sequence targets, in order. */
  function Uniforms(ws: seq<Write>): (us: seq<Uniform>)
    ensures |us| == |ws|
    ensures forall i :: 0 <= i < |ws| ==> us[i] == ws[i].uniform
  {
    seq(|ws|, i requires 0 <= i < |ws| => ws[i].uniform)
  }

  /** How many writes in `ws` target `u`. */
  function Count(ws: seq<Write>, u: Uniform): nat {
    multiset(Uniforms(ws))[u]
  }

  /** One pass of the synchroniser: exactly the nine uniforms, in the fixed
      order, each written once. */
  function Sync(p: Params, s: Surface): (ws: seq<Write>)
    ensures Uniforms(ws) == UniformOrder
  {
    var corners :=
      if p.unified then Vector4(p.tlRadius, p.tlRadius, p.tlRadius, p.tlRadius)
      else Vector4(p.blRadius, p.tlRadius, p.brRadius, p.trRadius);
    [ Write(Radii, corners),
      Write(FillColor, ColorValue(if p.fillEnabled then p.fillColor else Clear)),
      Write(MainTex, TextureValue(TextureOf(s.sprite))),
      Write(Outline, Float(if p.outlineEnabled then p.outline else 0.0)),
      Write(OutlineColor, ColorValue(p.outlineColor)),
      Write(OutlineTexture, TextureValue(TextureOf(p.outlineSprite))),
      Write(Size, Vector2(s.extent.width, s.extent.height)),
      Write(Softness, Float(p.softness)),
      Write(BaseColor, ColorValue(s.color)) ]
  }

  /** Every uniform occurs exactly once in the write order. */
  lemma UniformOrderIsComplete(u: Uniform)
    ensures multiset(UniformOrder)[u] == 1
  {
  }

  /** The nine shader property names are pairwise distinct, so no write
      of the block lands on another's uniform. */
  lemma NameIsInjective(u1: Uniform, u2: Uniform)
    requires Name(u1) == Name(u2)
    ensures u1 == u2
  {
    assert Name(u1)[1] == Name(u2)[1];
    if |Name(u1)| > 4 {
      assert Name(u1)[2..5] == Name(u2)[2..5];
    }
    if |Name(u1)| > 8 {
      assert Name(u1)[8] == Name(u2)[8];
    }
  }

  /** Every synchronisation writes each uniform exactly once; in
      particular it sends one `_Radii` vector, never a partial one. */
  lemma SyncWritesEachUniformOnce(p: Params, s: Surface, u: Uniform)
    ensures Count(Sync(p, s), u) == 1
  {
    UniformOrderIsComplete(u);
  }

  /** Counting writes distributes over concatenation. */
  lemma CountAppend(a: seq<Write>, b: seq<Write>, u: Uniform)
    ensures Count(a + b, u) == Count(a, u) + Count(b, u)
  {
    assert Uniforms(a + b) == Uniforms(a) + Uniforms(b);
  }

  // ---------------------------------------------------------------------
  // The sink

  /** The material's uniform block: the last value written to each name. */
  type Sink = map<Uniform, Value>

  /** Applies writes to the sink in order; a later write wins. */
  function Flush(sink: Sink, ws: seq<Write>): (r: Sink)
    ensures forall u | u in sink :: u in r
    ensures forall i | 0 <= i < |ws| :: ws[i].uniform in r
    decreases |ws|
  {
    if ws == [] then sink
    else Flush(sink[ws[0].uniform := ws[0].value], ws[1..])
  }

  /** Flushing a concatenation flushes the parts one after the other. */
  lemma {:induction false} FlushAppend(sink: Sink, a: seq<Write>, b: seq<Write>)
    ensures Flush(sink, a + b) == Flush(Flush(sink, a), b)
    decreases |a|
  {
    if a == [] {
      assert a + b == b;
    } else {
      assert (a + b)[1..] == a[1..] + b;
      FlushAppend(sink[a[0].uniform := a[0].value], a[1..], b);
    }
  }

  /** After flushing, a uniform no write targets keeps its old value. */
  lemma {:induction false} FlushUntouched(sink: Sink, ws: seq<Write>, u: Uniform)
    requires u !in Uniforms(ws)
    ensures u in Flush(sink, ws) <==> u in sink
    ensures u in sink ==> Flush(sink, ws)[u] == sink[u]
    decreases |ws|
  {
    if ws != [] {
      assert Uniforms(ws[1..]) == Uniforms(ws)[1..];
      FlushUntouched(sink[ws[0].uniform := ws[0].value], ws[1..], u);
    }
  }

  /** After flushing, a uniform holds the value of the last write to it. */
  lemma {:induction false} FlushLastWriteWins(sink: Sink, ws: seq<Write>, i: nat)
    requires i < |ws|
    requires forall j :: i < j < |ws| ==> ws[j].uniform != ws[i].uniform
    ensures ws[i].uniform in Flush(sink, ws)
    ensures Flush(sink, ws)[ws[i].uniform] == ws[i].value
    decreases |ws|
  {
    var next := sink[ws[0].uniform := ws[0].value];
    if i == 0 {
      assert ws[0].uniform !in Uniforms(ws[1..]);
      FlushUntouched(next, ws[1..], ws[0].uniform);
    } else {
      assert ws[1..][i - 1] == ws[i];
      FlushLastWriteWins(next, ws[1..], i - 1);
    }
  }

  /** A sink that a synchronisation has been flushed into. */
  function Rendered(p: Params, s: Surface): Sink {
    Flush(map[], Sync(p, s))
  }

  // ---------------------------------------------------------------------
  // The shader's reading of the sink

  /** What the shader draws from: per-corner radii, fill, outline, size,
      softness and base colour. */
  datatype View = View(
    topLeft: real, topRight: real, bottomLeft: real, bottomRight: real,
    fill: Color, fillTexture: Option<Texture>,
    outline: real, outlineColor: Color, outlineTexture: Option<Texture>,
    width: real, height: real,
    softness: real, color: Color)

  /** Reads the uniform block back; `_Radii` packs the corners as
      (bottom-left, top-left, bottom-right, top-right). Fails when a uniform
      is missing or holds a value of the wrong kind. */
  function Decode(sink: Sink): Option<View> {
    if && Radii in sink && sink[Radii].Vector4?
       && FillColor in sink && sink[FillColor].ColorValue?
       && MainTex in sink && sink[MainTex].TextureValue?
       && Outline in sink && sink[Outline].Float?
       && OutlineColor in sink && sink[OutlineColor].ColorValue?
       && OutlineTexture in sink && sink[OutlineTexture].TextureValue?
       && Size in sink && sink[Size].Vector2?
       && Softness in sink && sink[Softness].Float?
       && BaseColor in sink && sink[BaseColor].ColorValue?
    then
      var r := sink[Radii];
      Some(View(
        topLeft := r.y, topRight := r.w, bottomLeft := r.x, bottomRight := r.z,
        fill := sink[FillColor].c, fillTexture := sink[MainTex].t,
        outline := sink[Outline].f, outlineColor := sink[OutlineColor].c,
        outlineTexture := sink[OutlineTexture].t,
        width := sink[Size].u, height := sink[Size].v,
        softness := sink[Softness].f, color := sink[BaseColor].c))
    else None
  }

  /** The radius the shader should use for a corner: the top-left radius
      for every corner in unified mode, the corner's own otherwise. */
  function EffectiveRadius(p: Params, c: Corner): real {
    if p.unified then p.Radius() else p.CornerRadius(c)
  }

  /** What the store and surface mean for the shader: the effective corner
      radii, a clear fill when the fill is disabled, a zero outline when
      the outline is disabled, a null texture for a null sprite, the
      extent as size. */
  function Expected(p: Params, s: Surface): View {
    View(
      topLeft := EffectiveRadius(p, TopLeft),
      topRight := EffectiveRadius(p, TopRight),
      bottomLeft := EffectiveRadius(p, BottomLeft),
      bottomRight := EffectiveRadius(p, BottomRight),
      fill := if p.fillEnabled then p.fillColor else Clear,
      fillTexture := TextureOf(s.sprite),
      outline := if p.outlineEnabled then p.outline else 0.0,
      outlineColor := p.outlineColor,
      outlineTexture := TextureOf(p.outlineSprite),
      width := s.extent.width,
      height := s.extent.height,
      softness := p.softness,
      color := s.color)
  }

  /** Each write of a synchronisation is the last one to its uniform. */
  lemma SyncWritesAreLast(p: Params, s: Surface, i: nat, j: nat)
    requires i < j < |Sync(p, s)|
    ensures Sync(p, s)[j].uniform != Sync(p, s)[i].uniform
  {
    assert Uniforms(Sync(p, s)) == UniformOrder;
  }

  /** The uniform a synchronisation writes at a given position holds that
      write's value afterwards, whatever the sink held before. */
  lemma FlushSyncAt(sink: Sink, p: Params, s: Surface, i: nat)
    requires i < 9
    ensures Sync(p, s)[i].uniform in Flush(sink, Sync(p, s))
    ensures Flush(sink, Sync(p, s))[Sync(p, s)[i].uniform] == Sync(p, s)[i].value
  {
    var ws := Sync(p, s);
    forall j | i < j < |ws|
      ensures ws[j].uniform != ws[i].uniform
    {
      SyncWritesAreLast(p, s, i, j);
    }
    FlushLastWriteWins(sink, ws, i);
  }

  /** A synchronisation overwrites the whole uniform block: the sink ends
      up the same whatever it held before. */
  lemma FlushSyncOverwrites(sink: Sink, p: Params, s: Surface)
    ensures Flush(sink, Sync(p, s)) == Rendered(p, s)
  {
    var ws := Sync(p, s);
    var a, b := Flush(sink, ws), Flush(map[], ws);
    forall i | 0 <= i < 9
      ensures ws[i].uniform in a && ws[i].uniform in b && a[ws[i].uniform] == b[ws[i].uniform]
    {
      FlushSyncAt(sink, p, s, i);
      FlushSyncAt(map[], p, s, i);
    }
    forall u: Uniform
      ensures u in a && u in b && a[u] == b[u]
    {
      var i := match u
        case Radii => 0 case FillColor => 1 case MainTex => 2
        case Outline => 3 case OutlineColor => 4 case OutlineTexture => 5
        case Size => 6 case Softness => 7 case BaseColor => 8;
      assert ws[i].uniform == UniformOrder[i] == u;
    }
    assert a.Keys == b.Keys;
  }

  /** Round trip: the shader reading the uniform block back after a
      synchronisation sees exactly what the store and surface mean. */
  lemma SyncRoundTrip(sink: Sink, p: Params, s: Surface)
    ensures Decode(Flush(sink, Sync(p, s))) == Some(Expected(p, s))
  {
    FlushSyncOverwrites(sink, p, s);
    RenderedDecodes(p, s);
  }

  /** The shader's reading of a freshly rendered block. */
  lemma RenderedDecodes(p: Params, s: Surface)
    ensures Decode(Rendered(p, s)) == Some(Expected(p, s))
  {
    var sink: Sink := map[];
    FlushSyncAt(sink, p, s, 0);
    FlushSyncAt(sink, p, s, 1);
    FlushSyncAt(sink, p, s, 2);
    FlushSyncAt(sink, p, s, 3);
    FlushSyncAt(sink, p, s, 4);
    FlushSyncAt(sink, p, s, 5);
    FlushSyncAt(sink, p, s, 6);
    FlushSyncAt(sink, p, s, 7);
    FlushSyncAt(sink, p, s, 8);
  }

  /** In unified mode the three other stored corners never reach the
      shader; in per-corner mode each of them does. */
  lemma UnifiedHidesOtherCorners(p: Params, s: Surface, tr: real, bl: real, br: real)
    ensures p.unified ==> Sync(p.(trRadius := tr, blRadius := bl, brRadius := br), s) == Sync(p, s)
    ensures !p.unified && (tr != p.trRadius || bl != p.blRadius || br != p.brRadius) ==>
      Sync(p.(trRadius := tr, blRadius := bl, brRadius := br), s) != Sync(p, s)
  {
    if !p.unified && (tr != p.trRadius || bl != p.blRadius || br != p.brRadius) {
      assert Sync(p.(trRadius := tr, blRadius := bl, brRadius := br), s)[0] != Sync(p, s)[0];
    }
  }

  /** A disabled fill renders clear whatever colour is stored; an enabled
      fill renders its stored colour. */
  lemma FillColorReachesShaderIffEnabled(p: Params, s: Surface, c: Color)
    requires c != p.fillColor
    ensures Sync(p.(fillColor := c), s) == Sync(p, s) <==> !p.fillEnabled
  {
    if p.fillEnabled {
      assert Sync(p.(fillColor := c), s)[1] != Sync(p, s)[1];
    }
  }

  /** A disabled outline renders width 0 whatever width is stored; an
      enabled outline renders its stored width. */
  lemma OutlineWidthReachesShaderIffEnabled(p: Params, s: Surface, w: real)
    requires w != p.outline
    ensures Sync(p.(outline := w), s) == Sync(p, s) <==> !p.outlineEnabled
  {
    if p.outlineEnabled {
      assert Sync(p.(outline := w), s)[3] != Sync(p, s)[3];
    }
  }
}

=== FILE: serialization.dfy ===
/**
 The component's persisted layout: each field is stored under its current
 name, and three fields also accept the name they had before a rename
 (`_tint` for `_fillColor`, `_outline` for `_outlineEnabled`,
 `_outlineSize` for `_outline`). The old name `_outline` is now the
 current name of a field of another kind, so a stored value is only taken
 when its kind matches the field being read.
 */
module Serialization {
  import opened Values
  import opened Store

  /** A stored primitive: a bool, a float, a colour or an object reference. */
  datatype Field =
    | BoolField(b: bool)
    | FloatField(f: real)
    | ColorField(c: Color)
    | SpriteField(s: Option<Sprite>)
  {
    function Kind(): Kind {
      match this
      case BoolField(_) => BoolKind
      case FloatField(_) => FloatKind
      case ColorField(_) => ColorKind
      case SpriteField(_) => SpriteKind
    }
  }

  /** The kind of a stored primitive, which a field must match to take it. */
  datatype Kind = BoolKind | FloatKind | ColorKind | SpriteKind

  /** Every name a stored value can be found under: the twelve current
      field names and the two former names that are no longer current. */
  datatype Key =
    | UnifiedKey | TlRadiusKey | TrRadiusKey | BlRadiusKey | BrRadiusKey
    | FillEnabledKey | FillColorKey | OutlineEnabledKey | OutlineKey
    | OutlineColorKey | OutlineSpriteKey | SoftnessKey
    | TintKey | OutlineSizeKey

  /** The serialised name of each key. */
  function Name(k: Key): string {
    match k
    case UnifiedKey => "_unified"
    case TlRadiusKey => "_tlRadius"
    case TrRadiusKey => "_trRadius"
    case BlRadiusKey => "_blRadius"
    case BrRadiusKey => "_brRadius"
    case FillEnabledKey => "_fillEnabled"
    case FillColorKey => "_fillColor"
    case OutlineEnabledKey => "_outlineEnabled"
    case OutlineKey => "_outline"
    case OutlineColorKey => "_outlineColor"
    case OutlineSpriteKey => "_outlineSprite"
    case SoftnessKey => "_softness"
    case TintKey => "_tint"
    case OutlineSizeKey => "_outlineSize"
  }

  /** Distinct keys have distinct names, so a document keyed by `Key` is a
      document keyed by name. */
  lemma NameIsInjective(k1: Key, k2: Key)
    requires Name(k1) == Name(k2)
    ensures k1 == k2
  {
    assert Name(k1)[1] == Name(k2)[1];
    if |Name(k1)| > 4 {
      assert Name(k1)[2..5] == Name(k2)[2..5];
    }
  }

  /** A persisted component: stored values by field name. */
  type Document = map<Key, Field>

  /** Where one field is stored: its current name and, if it was renamed,
      the name it was stored under before. */
  datatype Slot = Slot(name: Key, former: Option<Key>)

  const UnifiedSlot := Slot(UnifiedKey, None)
  const TlRadiusSlot := Slot(TlRadiusKey, None)
  const TrRadiusSlot := Slot(TrRadiusKey, None)
  const BlRadiusSlot := Slot(BlRadiusKey, None)
  const BrRadiusSlot := Slot(BrRadiusKey, None)
  const FillEnabledSlot := Slot(FillEnabledKey, None)
  const FillColorSlot := Slot(FillColorKey, Some(TintKey))
  const OutlineEnabledSlot := Slot(OutlineEnabledKey, Some(OutlineKey))
  const OutlineSlot := Slot(OutlineKey, Some(OutlineSizeKey))
  const OutlineColorSlot := Slot(OutlineColorKey, None)
  const OutlineSpriteSlot := Slot(OutlineSpriteKey, None)
  const SoftnessSlot := Slot(SoftnessKey, None)

  /** Every field's slot, in declaration order. */
  const Slots: seq<Slot> := [
    UnifiedSlot, TlRadiusSlot, TrRadiusSlot, BlRadiusSlot, BrRadiusSlot,
    FillEnabledSlot, FillColorSlot, OutlineEnabledSlot, OutlineSlot,
    OutlineColorSlot, OutlineSpriteSlot, SoftnessSlot]

  /** The names the current layout writes. */
  const CurrentKeys: set<Key> := {
    UnifiedKey, TlRadiusKey, TrRadiusKey, BlRadiusKey, BrRadiusKey,
    FillEnabledKey, FillColorKey, OutlineEnabledKey, OutlineKey,
    OutlineColorKey, OutlineSpriteKey, SoftnessKey}

  /** The rename table, former name to current name. Its one former name
      that is still current, `_outline`, now holds a value of another kind. */
  const Renames: map<Key, Key> := map[
    TintKey := FillColorKey,
    OutlineKey := OutlineEnabledKey,
    OutlineSizeKey := OutlineKey]

  /** The rename table is exactly the slots' former names: each renamed
      slot's former name maps to its current name, and no other name is
      renamed. */
  lemma RenamesMatchSlots()
    ensures forall s | s in Slots && s.former.Some? ::
      s.former.value in Renames && Renames[s.former.value] == s.name
    ensures Renames.Keys == set s | s in Slots && s.former.Some? :: s.former.value
    ensures (set s | s in Slots :: s.name) == CurrentKeys
  {
  }

  /** A value of `kind` is stored under `k`. */
  predicate Stored(doc: Document, k: Key, kind: Kind) {
    k in doc && doc[k].Kind() == kind
  }

  /** `v` is what a field of `kind` restores from `slot`: the value under
      the current name when it has the field's kind, otherwise the value
      under the former name when that has the field's kind, otherwise the
      initialiser `init`. */
  predicate Restored(doc: Document, slot: Slot, kind: Kind, v: Field, init: Field) {
    var atFormer := slot.former.Some? && Stored(doc, slot.former.value, kind);
    && (Stored(doc, slot.name, kind) ==> v == doc[slot.name])
    && (!Stored(doc, slot.name, kind) && atFormer ==> v == doc[slot.former.value])
    && (!Stored(doc, slot.name, kind) && !atFormer ==> v == init)
  }

  /** The value stored for a slot of `kind`: under the current name if one
      of that kind is there, otherwise under the former name. */
  function Find(doc: Document, slot: Slot, kind: Kind): (r: Option<Field>)
    ensures r.Some? ==> r.value.Kind() == kind
    ensures Stored(doc, slot.name, kind) ==> r == Some(doc[slot.name])
  {
    if Stored(doc, slot.name, kind) then Some(doc[slot.name])
    else if slot.former.Some? && Stored(doc, slot.former.value, kind)
    then Some(doc[slot.former.value])
    else None
  }

  function ReadBool(doc: Document, slot: Slot, default: bool): bool {
    match Find(doc, slot, BoolKind)
    case Some(BoolField(b)) => b
    case _ => default
  }

  function ReadFloat(doc: Document, slot: Slot, default: real): real {
    match Find(doc, slot, FloatKind)
    case Some(FloatField(f)) => f
    case _ => default
  }

  function ReadColor(doc: Document, slot: Slot, default: Color): Color {
    match Find(doc, slot, ColorKind)
    case Some(ColorField(c)) => c
    case _ => default
  }

  function ReadSprite(doc: Document, slot: Slot, default: Option<Sprite>): Option<Sprite> {
    match Find(doc, slot, SpriteKind)
    case Some(SpriteField(s)) => s
    case _ => default
  }

  /** Restores a store: each field from its slot, or its initialiser when
      nothing of the right kind is stored. */
  function Load(doc: Document): (r: Params)
    ensures Restored(doc, UnifiedSlot, BoolKind, BoolField(r.unified), BoolField(Defaults.unified))
    ensures Restored(doc, TlRadiusSlot, FloatKind, FloatField(r.tlRadius), FloatField(Defaults.tlRadius))
    ensures Restored(doc, TrRadiusSlot, FloatKind, FloatField(r.trRadius), FloatField(Defaults.trRadius))
    ensures Restored(doc, BlRadiusSlot, FloatKind, FloatField(r.blRadius), FloatField(Defaults.blRadius))
    ensures Restored(doc, BrRadiusSlot, FloatKind, FloatField(r.brRadius), FloatField(Defaults.brRadius))
    ensures Restored(doc, FillEnabledSlot, BoolKind, BoolField(r.fillEnabled), BoolField(Defaults.fillEnabled))
    ensures Restored(doc, FillColorSlot, ColorKind, ColorField(r.fillColor), ColorField(Defaults.fillColor))
    ensures Restored(doc, OutlineEnabledSlot, BoolKind, BoolField(r.outlineEnabled), BoolField(Defaults.outlineEnabled))
    ensures Restored(doc, OutlineSlot, FloatKind, FloatField(r.outline), FloatField(Defaults.outline))
    ensures Restored(doc, OutlineColorSlot, ColorKind, ColorField(r.outlineColor), ColorField(Defaults.outlineColor))
    ensures Restored(doc, OutlineSpriteSlot, SpriteKind, SpriteField(r.outlineSprite), SpriteField(Defaults.outlineSprite))
    ensures Restored(doc, SoftnessSlot, FloatKind, FloatField(r.softness), FloatField(Defaults.softness))
  {
    Params(
      unified := ReadBool(doc, UnifiedSlot, Defaults.unified),
      tlRadius := ReadFloat(doc, TlRadiusSlot, Defaults.tlRadius),
      trRadius := ReadFloat(doc, TrRadiusSlot, Defaults.trRadius),
      blRadius := ReadFloat(doc, BlRadiusSlot, Defaults.blRadius),
      brRadius := ReadFloat(doc, BrRadiusSlot, Defaults.brRadius),
      fillEnabled := ReadBool(doc, FillEnabledSlot, Defaults.fillEnabled),
      fillColor := ReadColor(doc, FillColorSlot, Defaults.fillColor),
      outlineEnabled := ReadBool(doc, OutlineEnabledSlot, Defaults.outlineEnabled),
      outline := ReadFloat(doc, OutlineSlot, Defaults.outline),
      outlineColor := ReadColor(doc, OutlineColorSlot, Defaults.outlineColor),
      outlineSprite := ReadSprite(doc, OutlineSpriteSlot, Defaults.outlineSprite),
      softness := ReadFloat(doc, SoftnessSlot, Defaults.softness))
  }

  /** Persists a store under the current names only: no former name is
      written, and `_outline` holds the float width. */
  function Save(p: Params): (doc: Document)
    ensures doc.Keys == CurrentKeys
    ensures doc[OutlineKey].FloatField? && doc[OutlineEnabledKey].BoolField?
  {
    map[
      UnifiedSlot.name := BoolField(p.unified),
      TlRadiusSlot.name := FloatField(p.tlRadius),
      TrRadiusSlot.name := FloatField(p.trRadius),
      BlRadiusSlot.name := FloatField(p.blRadius),
      BrRadiusSlot.name := FloatField(p.brRadius),
      FillEnabledSlot.name := BoolField(p.fillEnabled),
      FillColorSlot.name := ColorField(p.fillColor),
      OutlineEnabledSlot.name := BoolField(p.outlineEnabled),
      OutlineSlot.name := FloatField(p.outline),
      OutlineColorSlot.name := ColorField(p.outlineColor),
      OutlineSpriteSlot.name := SpriteField(p.outlineSprite),
      SoftnessSlot.name := FloatField(p.softness)]
  }

  /** Round trip: loading a saved store gives it back unchanged. */
  lemma LoadSaveRoundTrip(p: Params)
    ensures Load(Save(p)) == p
  {
  }

  /** Nothing stored: every field takes its initialiser. */
  lemma LoadEmptyIsDefaults()
    ensures Load(map[]) == Defaults
  {
  }

  /** A document from before the renames migrates: the fill colour comes
      from `_tint`, the outline flag from the bool `_outline` and the width
      from `_outlineSize`, never from the bool stored under `_outline`. */
  lemma LoadLegacyDocument(doc: Document, tint: Color, enabled: bool, width: real)
    requires FillColorKey !in doc && OutlineEnabledKey !in doc
    requires TintKey in doc && doc[TintKey] == ColorField(tint)
    requires OutlineKey in doc && doc[OutlineKey] == BoolField(enabled)
    requires OutlineSizeKey in doc && doc[OutlineSizeKey] == FloatField(width)
    ensures Load(doc).fillColor == tint
    ensures Load(doc).outlineEnabled == enabled
    ensures Load(doc).outline == width
  {
  }

  /** A value under the current name wins over one under the former name. */
  lemma CurrentNameWins(doc: Document, c: Color, former: Color)
    requires FillColorKey in doc && doc[FillColorKey] == ColorField(c)
    requires TintKey in doc && doc[TintKey] == ColorField(former)
    ensures Load(doc).fillColor == c
  {
  }

  /** A current document that lacks `_outlineEnabled` does not read the
      float width under `_outline` as the flag: the flag takes its
      initialiser. */
  lemma ReusedNameNotMisread(doc: Document, width: real)
    requires OutlineEnabledKey !in doc
    requires OutlineKey in doc && doc[OutlineKey] == FloatField(width)
    ensures Load(doc).outlineEnabled == Defaults.outlineEnabled
    ensures Load(doc).outline == width
  {
  }

  // ---------------------------------------------------------------------
  // A reader that goes by name alone

  /** The value a name-first reader finds for a slot: whatever is stored
      under the current name, and only when nothing is, whatever is stored
      under the former name. The kind is not consulted. */
  function FindByName(doc: Document, slot: Slot): (r: Option<Field>)
    ensures slot.name in doc ==> r == Some(doc[slot.name])
    ensures slot.name !in doc && slot.former.Some? && slot.former.value in doc
         ==> r == Some(doc[slot.former.value])
    ensures r.None? <==> slot.name !in doc && (slot.former.None? || slot.former.value !in doc)
  {
    if slot.name in doc then Some(doc[slot.name])
    else if slot.former.Some? && slot.former.value in doc then Some(doc[slot.former.value])
    else None
  }

  /** A stored value read as a float by a text format that writes a bool as
      0 or 1. */
  function AsFloat(f: Option<Field>, default: real): real {
    match f
    case Some(FloatField(x)) => x
    case Some(BoolField(b)) => if b then 1.0 else 0.0
    case _ => default
  }

  /** A stored value read as a bool: a number is true when it is not 0. */
  function AsBool(f: Option<Field>, default: bool): bool {
    match f
    case Some(BoolField(b)) => b
    case Some(FloatField(x)) => x != 0.0
    case _ => default
  }

  function AsColor(f: Option<Field>, default: Color): Color {
    match f
    case Some(ColorField(c)) => c
    case _ => default
  }

  function AsSprite(f: Option<Field>, default: Option<Sprite>): Option<Sprite> {
    match f
    case Some(SpriteField(s)) => s
    case _ => default
  }

  /** The rename table read by name alone. Whatever is stored under
      `_outline` shadows `_outlineSize`: a float is the width, and a bool
      left by the old layout becomes the width 1 or 0. */
  function NameFirstLoad(doc: Document): (r: Params)
    ensures OutlineKey in doc ==> r.outline == AsFloat(Some(doc[OutlineKey]), Defaults.outline)
    ensures OutlineKey in doc && doc[OutlineKey].BoolField?
         ==> r.outline == (if doc[OutlineKey].b then 1.0 else 0.0)
    ensures OutlineKey !in doc && OutlineSizeKey in doc && doc[OutlineSizeKey].FloatField?
         ==> r.outline == doc[OutlineSizeKey].f
    ensures OutlineEnabledKey !in doc && OutlineKey in doc && doc[OutlineKey].FloatField?
         ==> r.outlineEnabled == (doc[OutlineKey].f != 0.0)
  {
    Params(
      unified := AsBool(FindByName(doc, UnifiedSlot), Defaults.unified),
      tlRadius := AsFloat(FindByName(doc, TlRadiusSlot), Defaults.tlRadius),
      trRadius := AsFloat(FindByName(doc, TrRadiusSlot), Defaults.trRadius),
      blRadius := AsFloat(FindByName(doc, BlRadiusSlot), Defaults.blRadius),
      brRadius := AsFloat(FindByName(doc, BrRadiusSlot), Defaults.brRadius),
      fillEnabled := AsBool(FindByName(doc, FillEnabledSlot), Defaults.fillEnabled),
      fillColor := AsColor(FindByName(doc, FillColorSlot), Defaults.fillColor),
      outlineEnabled := AsBool(FindByName(doc, OutlineEnabledSlot), Defaults.outlineEnabled),
      outline := AsFloat(FindByName(doc, OutlineSlot), Defaults.outline),
      outlineColor := AsColor(FindByName(doc, OutlineColorSlot), Defaults.outlineColor),
      outlineSprite := AsSprite(FindByName(doc, OutlineSpriteSlot), Defaults.outlineSprite),
      softness := AsFloat(FindByName(doc, SoftnessSlot), Defaults.softness))
  }

  /** Documents in the current layout read the same either way. */
  lemma NameFirstLoadSaveRoundTrip(p: Params)
    ensures NameFirstLoad(Save(p)) == p
    ensures NameFirstLoad(Save(p)) == Load(Save(p))
  {
  }

  /** The legacy width is lost when read by name alone: an old document
      with the outline on (`_outline: 1`) and a width of 8 under
      `_outlineSize` loads a width of 1, where the kind-aware `Load` gives
      8. The flag migrates correctly either way. */
  lemma LegacyWidthLost()
    ensures var doc := map[OutlineKey := BoolField(true), OutlineSizeKey := FloatField(8.0)];
      && NameFirstLoad(doc).outline == 1.0
      && NameFirstLoad(doc).outlineEnabled
      && Load(doc).outline == 8.0
      && Load(doc).outlineEnabled
  {
  }
}

=== FILE: store.dfy ===
/**
 The rounded image's parameter store: the serialised fields of the
 component, their defaults, and the predicates that say when the
 geometric fields are legal for an extent.
 */
module Store {
  import opened Values

  /** The four corners, named as the component's accessors name them. */
  datatype Corner = TopLeft | TopRight | BottomLeft | BottomRight

  /** Every field the component owns. The fill sprite and the base colour
      belong to the host image and are not part of this record. */
  datatype Params = Params(
    unified: bool,
    tlRadius: real,
    trRadius: real,
    blRadius: real,
    brRadius: real,
    fillEnabled: bool,
    fillColor: Color,
    outlineEnabled: bool,
    outline: real,
    outlineColor: Color,
    outlineSprite: Option<Sprite>,
    softness: real)
  {
    /** The `radius` getter reads the top-left corner. */
    function Radius(): real {
      tlRadius
    }

    /** The stored radius of one corner (the per-corner getters). */
    function CornerRadius(c: Corner): real {
      match c
      case TopLeft => tlRadius
      case TopRight => trRadius
      case BottomLeft => blRadius
      case BottomRight => brRadius
    }
  }

  /** The field initialisers of a freshly created component. */
  const Defaults: Params := Params(
    unified := true,
    tlRadius := 0.0,
    trRadius := 0.0,
    blRadius := 0.0,
    brRadius := 0.0,
    fillEnabled := true,
    fillColor := White,
    outlineEnabled := false,
    outline := 4.0,
    outlineColor := White,
    outlineSprite := None,
    softness := 0.5)

  /** Radii and the outline width may reach half the shorter side. */
  function HalfMax(e: Extent): real {
    ShorterSide(e) / 2.0
  }

  /** Every geometric field lies in its legal range for `e`: radii and the
      outline width in `[0, HalfMax]`, softness in `[0, ShorterSide]`. */
  predicate Legal(p: Params, e: Extent) {
    && 0.0 <= p.softness <= ShorterSide(e)
    && 0.0 <= p.outline <= HalfMax(e)
    && 0.0 <= p.tlRadius <= HalfMax(e)
    && 0.0 <= p.trRadius <= HalfMax(e)
    && 0.0 <= p.blRadius <= HalfMax(e)
    && 0.0 <= p.brRadius <= HalfMax(e)
  }

  /** The geometric fields of `p` and `q` agree. */
  predicate SameGeometry(p: Params, q: Params) {
    && p.tlRadius == q.tlRadius
    && p.trRadius == q.trRadius
    && p.blRadius == q.blRadius
    && p.brRadius == q.brRadius
    && p.outline == q.outline
    && p.softness == q.softness
  }

  /** The non-geometric fields (mode, flags, colours, sprite) agree. */
  predicate SameAppearance(p: Params, q: Params) {
    && p.unified == q.unified
    && p.fillEnabled == q.fillEnabled
    && p.fillColor == q.fillColor
    && p.outlineEnabled == q.outlineEnabled
    && p.outlineColor == q.outlineColor
    && p.outlineSprite == q.outlineSprite
  }

  /** Every geometric field of `p` is at most the same field of `q`. */
  predicate GeometryAtMost(p: Params, q: Params) {
    && p.tlRadius <= q.tlRadius
    && p.trRadius <= q.trRadius
    && p.blRadius <= q.blRadius
    && p.brRadius <= q.brRadius
    && p.outline <= q.outline
    && p.softness <= q.softness
  }

  /** `x` is `v` silently clipped into `[lo, hi]`: the nearer bound when
      `v` is out of range, `v` itself otherwise. */
  predicate Clipped(x: real, v: real, lo: real, hi: real) {
    && (v < lo ==> x == lo)
    && (hi < v ==> x == hi)
    && (lo <= v <= hi ==> x == v)
  }

  /** `q` is what validating `p` against a non-degenerate extent `e` must
      give: the appearance untouched and every geometric field clipped
      into its legal range. */
  predicate ClippedFrom(q: Params, p: Params, e: Extent) {
    && SameAppearance(q, p)
    && Clipped(q.softness, p.softness, 0.0, ShorterSide(e))
    && Clipped(q.outline, p.outline, 0.0, HalfMax(e))
    && Clipped(q.tlRadius, p.tlRadius, 0.0, HalfMax(e))
    && Clipped(q.trRadius, p.trRadius, 0.0, HalfMax(e))
    && Clipped(q.blRadius, p.blRadius, 0.0, HalfMax(e))
    && Clipped(q.brRadius, p.brRadius, 0.0, HalfMax(e))
  }

  /** Geometry and appearance together are the whole record. */
  lemma GeometryAndAppearanceDetermineParams(p: Params, q: Params)
    requires SameGeometry(p, q) && SameAppearance(p, q)
    ensures p == q
  {
  }

  /** The clipping specification admits at most one store for any extent. */
  lemma ClippedFromIsUnique(q1: Params, q2: Params, p: Params, e: Extent)
    requires ClippedFrom(q1, p, e) && ClippedFrom(q2, p, e)
    ensures q1 == q2
  {
  }

  /** The default outline width of 4 is legal only when the shorter side is
      at least 8; the other defaults, softness 0.5 included, are then legal
      too. */
  lemma DefaultsLegalExactly(e: Extent)
    ensures Legal(Defaults, e) <==> ShorterSide(e) >= 8.0
  {
  }
}

=== FILE: validator.dfy ===
/**
 `ValidateValues`: clamps the geometric fields of the store to the ranges
 the current extent allows, and does nothing while the extent is
 degenerate.
 */
module Validator {
  import opened Values
  import opened Store

  /** Sides shorter than this suspend validation (`0.001f` in the source). */
  const Epsilon: real := 0.001

  /** Either side is below `Epsilon`. */
  predicate Degenerate(e: Extent) {
    e.width < Epsilon || e.height < Epsilon
  }

  /** Validation never fails: a degenerate extent leaves the store exactly
      as it was, any other extent clips every geometric field into its
      legal range and leaves everything else alone. */
  function Validate(p: Params, e: Extent): (r: Params)
    ensures Degenerate(e) ==> r == p
    ensures !Degenerate(e) ==> ClippedFrom(r, p, e) && Legal(r, e)
    ensures SameAppearance(r, p)
    ensures Legal(p, e) ==> r == p
  {
    if Degenerate(e) then p
    else
      var max := ShorterSide(e);
      var halfMax := max / 2.0;
      p.(softness := Clamp(p.softness, 0.0, max),
         outline := Clamp(p.outline, 0.0, halfMax),
         tlRadius := Clamp(p.tlRadius, 0.0, halfMax),
         trRadius := Clamp(p.trRadius, 0.0, halfMax),
         blRadius := Clamp(p.blRadius, 0.0, halfMax),
         brRadius := Clamp(p.brRadius, 0.0, halfMax))
  }

  /** For a non-degenerate extent the clipping specification has exactly
      one solution, and it is the validated store. */
  lemma ClippedFromIsValidate(q: Params, p: Params, e: Extent)
    requires !Degenerate(e)
    ensures ClippedFrom(q, p, e) <==> q == Validate(p, e)
  {
    if ClippedFrom(q, p, e) {
      ClippedFromIsUnique(q, Validate(p, e), p, e);
    }
  }

  /** Every corner radius ends up in `[0, min(w, h) / 2]`. */
  lemma RadiusBounds(p: Params, e: Extent, c: Corner)
    requires !Degenerate(e)
    ensures 0.0 <= Validate(p, e).CornerRadius(c) <= ShorterSide(e) / 2.0
  {
  }

  /** Softness is bounded by the shorter side itself, not by its half;
      the outline width by the half. */
  lemma SoftnessAndOutlineBounds(p: Params, e: Extent)
    requires !Degenerate(e)
    ensures 0.0 <= Validate(p, e).softness <= ShorterSide(e)
    ensures 0.0 <= Validate(p, e).outline <= ShorterSide(e) / 2.0
  {
  }

  /** Validating twice against the same extent changes nothing more. */
  lemma ValidateIdempotent(p: Params, e: Extent)
    ensures Validate(Validate(p, e), e) == Validate(p, e)
  {
  }

  /** Each geometric field is moved to the nearest legal value: no legal
      store is closer, field by field, to the one validated. */
  lemma {:induction false} ValidateIsNearest(p: Params, e: Extent, q: Params)
    requires !Degenerate(e) && Legal(q, e)
    ensures Dist(Validate(p, e).softness, p.softness) <= Dist(q.softness, p.softness)
    ensures Dist(Validate(p, e).outline, p.outline) <= Dist(q.outline, p.outline)
    ensures Dist(Validate(p, e).tlRadius, p.tlRadius) <= Dist(q.tlRadius, p.tlRadius)
    ensures Dist(Validate(p, e).trRadius, p.trRadius) <= Dist(q.trRadius, p.trRadius)
    ensures Dist(Validate(p, e).blRadius, p.blRadius) <= Dist(q.blRadius, p.blRadius)
    ensures Dist(Validate(p, e).brRadius, p.brRadius) <= Dist(q.brRadius, p.brRadius)
  {
    var max := ShorterSide(e);
    ClampIsNearest(p.softness, 0.0, max, q.softness);
    ClampIsNearest(p.outline, 0.0, max / 2.0, q.outline);
    ClampIsNearest(p.tlRadius, 0.0, max / 2.0, q.tlRadius);
    ClampIsNearest(p.trRadius, 0.0, max / 2.0, q.trRadius);
    ClampIsNearest(p.blRadius, 0.0, max / 2.0, q.blRadius);
    ClampIsNearest(p.brRadius, 0.0, max / 2.0, q.brRadius);
  }

  /** An extent no larger on either side, and not itself degenerate, gives
      a component-wise smaller or equal store. */
  lemma ValidateMonotone(p: Params, small: Extent, large: Extent)
    requires !Degenerate(small)
    requires small.width <= large.width && small.height <= large.height
    ensures GeometryAtMost(Validate(p, small), Validate(p, large))
  {
    var m1, m2 := ShorterSide(large), ShorterSide(small);
    ClampMonotone(p.softness, 0.0, m1, m2);
    ClampMonotone(p.outline, 0.0, m1 / 2.0, m2 / 2.0);
    ClampMonotone(p.tlRadius, 0.0, m1 / 2.0, m2 / 2.0);
    ClampMonotone(p.trRadius, 0.0, m1 / 2.0, m2 / 2.0);
    ClampMonotone(p.blRadius, 0.0, m1 / 2.0, m2 / 2.0);
    ClampMonotone(p.brRadius, 0.0, m1 / 2.0, m2 / 2.0);
  }

  /** Shrinking only tightens: validating against a larger extent first and
      then against a smaller, non-degenerate one is the same as validating
      against the smaller one directly. */
  lemma ValidateShrinkAbsorbs(p: Params, small: Extent, large: Extent)
    requires !Degenerate(small)
    requires small.width <= large.width && small.height <= large.height
    ensures Validate(Validate(p, large), small) == Validate(p, small)
  {
    var m1, m2 := ShorterSide(large), ShorterSide(small);
    ClampAbsorbs(p.softness, 0.0, m1, m2);
    ClampAbsorbs(p.outline, 0.0, m1 / 2.0, m2 / 2.0);
    ClampAbsorbs(p.tlRadius, 0.0, m1 / 2.0, m2 / 2.0);
    ClampAbsorbs(p.trRadius, 0.0, m1 / 2.0, m2 / 2.0);
    ClampAbsorbs(p.blRadius, 0.0, m1 / 2.0, m2 / 2.0);
    ClampAbsorbs(p.brRadius, 0.0, m1 / 2.0, m2 / 2.0);
  }

  /** Both shrink properties stop at the 0.001 threshold. Below it nothing
      is clipped: a radius of 100 stays 100 at (0, 0) while (100, 100)
      clips it to 50, and validating at (0, 0) after (100, 100) keeps the
      50 instead of the 100 that validating at (0, 0) alone gives. */
  lemma DegenerateBreaksMonotone()
    ensures var p := Defaults.(tlRadius := 100.0);
      var small, large := Extent(0.0, 0.0), Extent(100.0, 100.0);
      && small.width <= large.width && small.height <= large.height
      && !GeometryAtMost(Validate(p, small), Validate(p, large))
      && Validate(Validate(p, large), small) != Validate(p, small)
  {
  }

  /** Validating after each of four corner writes gives the same store as
      writing all four corners and validating once. */
  lemma ValidateEachCornerLikeAll(p: Params, e: Extent, v: real)
    ensures
      var q1 := Validate(p.(tlRadius := v), e);
      var q2 := Validate(q1.(trRadius := v), e);
      var q3 := Validate(q2.(blRadius := v), e);
      Validate(q3.(brRadius := v), e)
        == Validate(p.(tlRadius := v, trRadius := v, blRadius := v, brRadius := v), e)
  {
    if !Degenerate(e) {
      var max := ShorterSide(e);
      var q1 := Validate(p.(tlRadius := v), e);
      var q2 := Validate(q1.(trRadius := v), e);
      var q3 := Validate(q2.(blRadius := v), e);
      var q4 := Validate(q3.(brRadius := v), e);
      var all := Validate(p.(tlRadius := v, trRadius := v, blRadius := v, brRadius := v), e);
      assert q4.softness == all.softness by {
        ClampAbsorbs(p.softness, 0.0, max, max);
      }
      assert q4.outline == all.outline by {
        ClampAbsorbs(p.outline, 0.0, max / 2.0, max / 2.0);
      }
      assert q4.tlRadius == all.tlRadius by {
        ClampAbsorbs(v, 0.0, max / 2.0, max / 2.0);
      }
      GeometryAndAppearanceDetermineParams(q4, all);
    }
  }

  /** At extent (100, 40): a radius of 999 reads back 20, a negative
      radius 0, softness 500 becomes 40 and an outline of 25 becomes 20. */
  lemma ClampExamples(p: Params)
    ensures Validate(p.(tlRadius := 999.0), Extent(100.0, 40.0)).tlRadius == 20.0
    ensures Validate(p.(trRadius := -3.0), Extent(100.0, 40.0)).trRadius == 0.0
    ensures Validate(p.(softness := 500.0), Extent(100.0, 40.0)).softness == 40.0
    ensures Validate(p.(outline := 25.0), Extent(100.0, 40.0)).outline == 20.0
  {
  }

  /** At extent (0, 0) an out-of-range radius stays stored as it is. */
  lemma DegenerateExample(p: Params)
    ensures Validate(p.(tlRadius := 50.0), Extent(0.0, 0.0)).tlRadius == 50.0
    ensures Validate(p.(tlRadius := 50.0), Extent(100.0, 0.0005)).tlRadius == 50.0
  {
  }
}

=== FILE: values.dfy ===
/**
 Plain values the rounded image works with: optional references, colours,
 sprites and their textures, the rectangle's extent, and the clamp that
 validation uses. Unity's `float` is modelled as `real`.
 */
module Values {

  /** A reference that may be null. */
  datatype Option<+T> = None | Some(value: T)

  /** An RGBA colour. Colours are opaque to the component; only `Clear`
      (used for a disabled fill) and `White` (the field defaults) matter. */
  datatype Color = Color(r: real, g: real, b: real, a: real)

  const White: Color := Color(1.0, 1.0, 1.0, 1.0)
  const Clear: Color := Color(0.0, 0.0, 0.0, 0.0)

  /** A texture handle as the material sees it; only its identity matters. */
  datatype Texture = Texture(id: nat)

  /** A sprite asset; the material only ever uses its texture. */
  datatype Sprite = Sprite(texture: Texture)

  /** The texture handed to the material for an optional sprite:
      a null sprite gives a null texture. */
  function TextureOf(s: Option<Sprite>): (t: Option<Texture>)
    ensures t.None? <==> s.None?
    ensures s.Some? ==> t == Some(s.value.texture)
  {
    match s
    case None => None
    case Some(sp) => Some(sp.texture)
  }

  /** The host rectangle's size, as reported by its RectTransform. */
  datatype Extent = Extent(width: real, height: real)

  /** `Mathf.Min(width, height)`: the shorter side of the rectangle. */
  function ShorterSide(e: Extent): (m: real)
    ensures m <= e.width && m <= e.height
    ensures m == e.width || m == e.height
  {
    if e.width < e.height then e.width else e.height
  }

  /** The distance between two reals. */
  function Dist(x: real, y: real): (d: real)
    ensures d >= 0.0
    ensures d == 0.0 <==> x == y
  {
    if x < y then y - x else x - y
  }

  /** `Mathf.Clamp(value, lo, hi)`: the lower bound is tested first,
      then the upper one. */
  function Clamp(value: real, lo: real, hi: real): (r: real)
    ensures lo <= hi ==> lo <= r <= hi
    ensures lo <= value <= hi ==> r == value
    ensures value < lo ==> r == lo
    ensures lo <= value && hi < value ==> r == hi
  {
    if value < lo then lo else if value > hi then hi else value
  }

  /** A clamped value is the legal value nearest to the input:
      no point of `[lo, hi]` is closer to `value`. */
  lemma ClampIsNearest(value: real, lo: real, hi: real, x: real)
    requires lo <= x <= hi
    ensures Dist(Clamp(value, lo, hi), value) <= Dist(x, value)
  {
  }

  /** Lowering the upper bound can only lower the clamped value. */
  lemma ClampMonotone(value: real, lo: real, hi1: real, hi2: real)
    requires lo <= hi2 <= hi1
    ensures Clamp(value, lo, hi2) <= Clamp(value, lo, hi1)
  {
  }

  /** Clamping into a wider range and then into a narrower one is the
      same as clamping into the narrower one directly. */
  lemma ClampAbsorbs(value: real, lo: real, hi1: real, hi2: real)
    requires lo <= hi2 <= hi1
    ensures Clamp(Clamp(value, lo, hi1), lo, hi2) == Clamp(value, lo, hi2)
  {
  }
}
